=== FILE: README.md ===
# faceduker: a Dafny model of the Duke overlay and its ingestion paths

faceduker is a Spring Boot service that finds faces in an uploaded image
and paints a "Duke" stamp over each one: a black upper half, a white lower
half and a red disc. Images arrive by a synchronous HTTP upload
(`POST /duker`, answered with the stamped image), by an HTTP upload that is
queued (`POST /queue`), or as Base64 text over a STOMP connection (message
`duker`). A JMS listener on `processImage` stamps each queued image,
resizes it, writes it as PNG and broadcasts its Base64 text on
`/queue/finish`.

This project models the deterministic core of that service:

- `geometry.dfy` (`Geometry`): OpenCV's `Point`, `Rect`, `Scalar`, the two
  filled shapes, Java's truncating integer division, and pixel membership
  of a shape.
- `canvas.dfy` (`Canvas`): an abstract `Mat` as a grid of `Scalar` pixels;
  a fill call and a sequence of fill calls on the same image; a reference
  definition (`LastCover`) of what a sequence of fills leaves at a pixel.
- `face_translator.dfy` (`FaceTranslator`): `FaceTranslator.duker` as the
  three fill commands it issues, and the stamp they paint.
- `face_detector.dfy` (`FaceDetector`): the loop of `detectFaces`, proved
  equal to a left fold of the action over the detections.
- `base64.dfy` (`Base64`): the Base64 codec of section 4 of RFC 4648 as
  `java.util.Base64`'s basic encoder and decoder apply it, with its round
  trip proved.
- `app.dfy` (`App`): the four controller operations, with image decoding,
  the classifier, resizing and PNG writing passed in as functions
  (`Collaborators`).
- `folds.dfy` (`Folds`) and `results.dfy` (`Results`): a generic left fold
  and the `Option`/`Result` types that stand for Java's `null` and
  exceptions.

Pixel membership is an abstraction of OpenCV's rasteriser: a filled
rectangle covers the closed range between its two corners on both axes,
and a filled circle covers the closed Euclidean disc. Anti-aliasing
(`CV_AA`) and the exact pixels OpenCV chooses on a shape's edge are not
modelled. Pixels outside the image are never written, so a shape that
sticks out is clipped.

Behaviour of the code that the model follows:

- Only the synchronous path looks at the image before answering. `/queue`
  and the message endpoint enqueue any bytes they receive. An unreadable
  image then fails in the listener, and nothing is broadcast.
- The synchronous path does not resize. Only the listener resizes, to the
  `faceduker.width` setting (default 200).
- Java's `/` truncates toward zero. The stamp uses `h / 2` and
  `(w + h) / 12`, which the model writes with `JavaDiv`. For regions of
  non-negative size this agrees with Dafny's `/`.

## Model

| member | source | states |
|---|---|---|
| FaceTranslator.Duker | src/main/java/facedukuer/App.java:179-192 | Exactly three fills, black then white then red. The black box starts at the region's top-left corner and the white box ends at its bottom-right corner. Both span the region's columns and meet on one shared split row. The disc is centred on that row, as far right of the left edge as the split row is below the top. For a non-negative height the split row is `y + h/2` and the disc centre is `(x + h/2, y + h/2)`. For non-negative sizes the radius is `(w+h)/12` rounded down and is never negative, and the split row lies inside the region. |
| FaceTranslator.Dukify | src/main/java/facedukuer/App.java:179-192 | Stamping a region keeps the image's rows and the length of every row. |
| FaceTranslator.DukerExample | src/main/java/facedukuer/App.java:183-191 | Region {100, 80, 60, 60} gives a black box (100,80)-(160,110), a white box (100,110)-(160,140), and a red disc centred at (130,110) with radius 10. |
| FaceTranslator.HalvesTileRegion | src/main/java/facedukuer/App.java:183-188 | For a region of non-negative size, a pixel is under the black or the white box exactly when it lies in the closed region. It is under both exactly when it lies on the split row `y + h/2`. |
| FaceTranslator.DukifyPixel | src/main/java/facedukuer/App.java:183-191 | After stamping, a pixel is red if the disc covers it. Otherwise it is white if the lower box covers it, so the shared split row is white. Otherwise it is black if the upper box covers it, and otherwise it keeps its old value. |
| FaceTranslator.DiscIsRed | src/main/java/facedukuer/App.java:190-191 | Every pixel under the disc ends up red, whichever half it lies in. |
| FaceTranslator.DukifyFrame | src/main/java/facedukuer/App.java:179-192 | Stamping keeps the shape of the image. It leaves every pixel outside the three shapes unchanged. Every pixel under a shape ends up black, white or red, and no other colour is written. |
| FaceTranslator.DukifyIdempotent | src/main/java/facedukuer/App.java:179-192 | Under the closed-shape abstraction, stamping the same region twice gives the same image as stamping it once: a covered pixel's final colour does not depend on its old value. With anti-aliasing (`CV_AA`, App.java:184, 188, 191) edge pixels blend with what is there, so the source's second stamp would alter them. |
| Canvas.Paint | src/main/java/facedukuer/App.java:183-191 | One fill call keeps the image's shape and keeps a rectangular image rectangular. It sets the pixels its shape covers to its colour and leaves every other pixel as it was. |
| Canvas.PaintAll | src/main/java/facedukuer/App.java:183-191 | A sequence of fill calls on the same image keeps the image's shape. A rectangular image stays rectangular with the same rows and columns. |
| Canvas.LastCover | src/main/java/facedukuer/App.java:183-191 | The reference for overwriting: there is no colour exactly when no fill covers the pixel. Otherwise the colour is that of a covering fill with no covering fill after it. |
| Canvas.PaintAllShape | src/main/java/facedukuer/App.java:183-191 | Folding fills over an image, in any number, keeps its rows and row lengths. |
| Canvas.PaintAllPixel | src/main/java/facedukuer/App.java:183-191 | Later fills overwrite earlier ones. After the fills, each pixel holds the colour `LastCover` gives, or its old value when no fill covers it. |
| FaceDetector.DetectFaces | src/main/java/facedukuer/App.java:157-166 | The loop calls the action once per detection, passing the detections in index order. The result is the action folded over the detections on the same image. With no detection the image is returned unchanged. |
| FaceDetector.ApplyAllStep | src/main/java/facedukuer/App.java:162-165 | Detection `i` is acted on after detections `0..i-1`, on the image they produced. |
| FaceDetector.ApplyAllKeepsShape | src/main/java/facedukuer/App.java:157-165 | If the action keeps an image's shape, so does the whole loop, over any detections. |
| App.DukeFaces | src/main/java/facedukuer/App.java:102 | Stamping every detection keeps the image's rows and row lengths, and keeps a rectangular image rectangular. |
| App.DukeFacesPixel | src/main/java/facedukuer/App.java:157-192 | Every detection's stamp survives wherever no later detection's overlay reaches. At a pixel under detection `i`'s overlay and under no later one, the result is red inside `i`'s disc, otherwise white in its lower half, otherwise black. So N detections whose overlays do not overlap leave N complete stamps. Regions that merely touch share an edge row or column, because both corners of a box are included, and there the later stamp wins. |
| App.DukeFacesFrame | src/main/java/facedukuer/App.java:102 | A pixel outside every detection's overlay keeps its value. Any pixel that changes is black, white or red. |
| App.LastFaceOnTop | src/main/java/facedukuer/App.java:162-165 | The last detection is stamped last, so its disc is red whatever earlier stamps painted there. |
| App.SyncDuker | src/main/java/facedukuer/App.java:99-107 | `POST /duker` succeeds exactly when the upload decodes as an image. It answers with the source image with every detection stamped in index order (`DukeFaces`), so `DukeFacesPixel` and `DukeFacesFrame` describe the answer. The answer has the source's columns and rows and the same shape, and it is rectangular when the source is. With no detection the answer is the source image itself. |
| App.Queue | src/main/java/facedukuer/App.java:109-114 | `POST /queue` answers `"OK"` and sends exactly one message. The message goes to `processImage` and carries the uploaded bytes unchanged. |
| App.MessageDuker | src/main/java/facedukuer/App.java:116-121 | The message endpoint succeeds exactly when its text is valid Base64. It then answers `"OK"` and sends one message to `processImage`, carrying the decoded bytes. |
| App.MessageMatchesUpload | src/main/java/facedukuer/App.java:109-121 | Sending the Base64 text of some bytes to the message endpoint queues the same message as uploading those bytes to `/queue`. |
| App.HandleImageMessage | src/main/java/facedukuer/App.java:123-144 | The listener publishes exactly when the payload decodes as an image and the stamped image can be resized. An unreadable payload fails with `ImageUnreadable`. A publication goes only to `/queue/finish`, its text is whole padded 4-character quanta, and its text is exactly the padded Base64 encoding `getEncoder().encodeToString` gives of the PNG bytes of the stamped, resized image, which decodes back to those bytes. |
| App.QueuedMatchesSync | src/main/java/facedukuer/App.java:99-144 | For an upload to `/queue`, the listener publishes exactly when `POST /duker` would answer and that answer can be resized. An upload whose resize throws, such as one that scales to zero rows, is answered inline but never broadcast. The broadcast decodes to the PNG of the image `POST /duker` would have returned, after resizing. |
| Base64.CharOf | src/main/java/facedukuer/App.java:141 | Each 6-bit value maps to a character of the RFC 4648 alphabet, and `IndexOf` maps that character back to the value. |
| Base64.GroupRoundTrip | src/main/java/facedukuer/App.java:141 | Splitting three octets into four 6-bit groups and joining the groups again gives back the octets. |
| Base64.QuantumRoundTrip | src/main/java/facedukuer/App.java:141 | Decoding the four characters of one encoded 24-bit group gives back its three octets. |
| Base64.EncodeUnpadded | src/main/java/facedukuer/App.java:141 | The unpadded encoding uses only alphabet characters. Its length modulo 4 is 0, 2 or 3 when the octet count modulo 3 is 0, 1 or 2. |
| Base64.Encode | src/main/java/facedukuer/App.java:141 | The encoder's output is a whole number of 4-character quanta. It uses only alphabet characters and `=`. |
| Base64.EncodedLength | src/main/java/facedukuer/App.java:141 | `n` octets encode to `4 * ceil(n / 3)` characters. |
| Base64.DecodeUnpadded | src/main/java/facedukuer/App.java:118 | Decoding `k` alphabet characters gives `floor(3k / 4)` octets. |
| Base64.Decode | src/main/java/facedukuer/App.java:118 | The decoder rejects any character that is neither in the alphabet nor `=`. It rejects any text whose length modulo 4 is 1. It rejects padding that does not complete the final unit, as in `QQ=` or `QUJD=`. Any text it accepts has `=` only among its last two characters and only if it ends with `=`, so `QQ==QUJD`, `Q===` and `QU=A` are rejected. |
| Base64.OneOctetRoundTrip | src/main/java/facedukuer/App.java:118 | A final unit encoding one octet, two characters, decodes back to that octet. |
| Base64.TwoOctetsValues | src/main/java/facedukuer/App.java:118 | A final unit encoding two octets, three characters, decodes back to those octets. |
| Base64.TwoOctetsRoundTrip | src/main/java/facedukuer/App.java:118 | The same for any two-octet sequence. |
| Base64.LeadingQuantum | src/main/java/facedukuer/App.java:118 | Decoding the encoding of three or more octets gives the first three octets, then the decoding of the rest's encoding. |
| Base64.DecodeNoPadding | src/main/java/facedukuer/App.java:118 | Alphabet text without padding whose final unit is not a single character is accepted and decoded as it stands. |
| Base64.DecodeOnePad | src/main/java/facedukuer/App.java:118 | One `=` after a final unit of three characters is accepted, and the text decodes like the unit without it. |
| Base64.DecodeTwoPads | src/main/java/facedukuer/App.java:118 | Two `=` after a final unit of two characters are accepted, and the text decodes like the unit without them. |
| Base64.UnpaddedRoundTrip | src/main/java/facedukuer/App.java:118 | Decoding the unpadded encoding of some octets gives back those octets. |
| Base64.RoundTrip | src/main/java/facedukuer/App.java:141 | Decoding the encoder's output gives back the encoded octets, so a broadcast payload recovers the PNG bytes. |
| Base64.UnpaddedAccepted | src/main/java/facedukuer/App.java:118 | The decoder also accepts an encoding whose padding was left off, and returns the same octets. |

## Left out

- Spring, JMS and STOMP configuration (App.java:66-96) is left out because it is wiring. So are the listener concurrency `"1-4"` and the 10 MB message size limit (App.java:94, 123). The model treats each call as one sequential, independent step.
- The cascade classifier (`detectMultiScale`, loading the classifier file in `init`, App.java:159, 168-175) is a pre-trained foreign detector. The model takes its output as an opaque sequence of rectangles (`Collaborators.detect`).
- `ImageIO.read` and `Mat.createFrom` are codec primitives and together make up the parameter `read`. `getBufferedImage` and `ImageIO.write` make up the parameter `writePng`. The synchronous path's copy of the `Mat` into a new `BufferedImage` (App.java:103-105) is taken as the identity on pixels: `SyncDuker` answers the stamped image itself. An unreadable image (`ImageIO.read` returning `null`) is the error `ImageUnreadable`. The `IOException` of reading an upload's stream is not modelled.
- The resize step (App.java:131-134) uses `double` ratio arithmetic and OpenCV's `INTER_LINEAR` interpolation. It is the opaque parameter `resize(image, resizedWidth)`, which returns `None` where OpenCV throws. No size formula for the resized image is stated, so the model does not say which inputs make resize throw. OpenCV throws when the scaled size has zero area, for example a 1000×2 image at width 200, or any image when `faceduker.width` is 0 or less.
- App.HandleImageMessage assumes that `getBufferedImage` and PNG writing (App.java:136-140) never fail. Only a failed image read or a failed resize is modelled as a failure.
- OpenCV rasterisation is abstracted to closed boxes and closed discs. Anti-aliasing, edge pixels and OpenCV's rejection of a negative radius are not modelled. A negative radius cannot come from a detected region, whose size is non-negative.
- Pixels are four-channel `Scalar` values. The channel count and depth of the real `Mat` are not modelled. The colour facts, `DiscIsRed` and the blue-green-red reading of `Red`, hold only for a three-channel BGR image. On a one-channel grey `Mat` OpenCV writes only the first `Scalar` component, so the "red" disc comes out as 0, as dark as the black half.
- Logging (App.java:125, 161, 170-172) is left out.
- App.MessageDuker and App.Queue stop at the method's return value `"OK"`. Where Spring delivers that value is not modelled. For the message endpoint, Spring sends it to `/topic/duker`, but the simple broker is enabled only for `/queue` (App.java:76), so no client receives it.
- FaceTranslator.Duker does not model 32-bit overflow of `x + w`, `y + h` or `w + h`. Detected regions lie inside the image, so these sums stay far below 2^31.
- Base64.byte models Java's signed `byte` by its unsigned value 0..255.
- Base64.Decode does not reject non-zero leftover bits in the final unit, because Java's basic decoder does not reject them either. It rejects characters outside ISO-8859-1 like any other non-alphabet character.

=== FILE: app.dfy ===
/** The `App` controller: the synchronous `/duker` upload, the `/queue`
    upload, the `duker` message endpoint, and the JMS listener that stamps
    queued images and broadcasts them. Transport (HTTP, JMS, STOMP) is
    reduced to what each entry point returns and what it sends where. */
module App {
  import opened Results
  import opened Geometry
  import opened Canvas
  import opened Folds
  import opened FaceTranslator
  import opened FaceDetector
  import Base64

  type Bytes = seq<Base64.byte>

  /** The JMS destination both asynchronous entry points send to and the listener reads. */
  const ProcessImage: string := "processImage"
  /** The STOMP destination the listener broadcasts finished images to. */
  const FinishDestination: string := "/queue/finish"
  /** The acknowledgement both asynchronous entry points return. */
  const Ack: string := "OK"
  /** Why an entry point fails instead of answering. */
  datatype Error =
    | ImageUnreadable   // ImageIO.read found no reader for the bytes
    | MalformedBase64   // Base64.getDecoder().decode threw
    | ResizeFailed      // opencv_imgproc.resize threw, e.g. on a zero-area result

  datatype JmsMessage = JmsMessage(destination: string, payload: Bytes)

  /** What an asynchronous entry point returns and the messages it sent. */
  datatype Reply = Reply(body: string, sent: seq<JmsMessage>)

  datatype StompMessage = StompMessage(destination: string, payload: string)

  /** The code the controller calls but that is not part of this model:
      image decoding, the loaded cascade classifier, OpenCV's resize to a
      target width (`None` where it throws, as it does when the scaled size
      has zero area), and PNG encoding. */
  datatype Collaborators = Collaborators(
    read: Bytes -> Option<Image>,
    detect: Image -> seq<Rect>,
    resize: (Image, int) -> Option<Image>,
    writePng: Image -> Bytes)

  /** `detectFaces(source, FaceTranslator::duker)`: every detection stamped, in order. */
  function DukeFaces(source: Image, faces: seq<Rect>): (out: Image)
    ensures SameShape(source, out)
    ensures Rectangular(source) ==> Rectangular(out)
  {
    ApplyAllKeepsShape(source, faces, Dukify);
    ApplyAll(source, faces, Dukify)
  }

  /** Stamping leaves every pixel outside all overlays as it was, writes only
      the three overlay colours, and with no detection changes nothing. */
  lemma {:induction false} DukeFacesFrame(source: Image, faces: seq<Rect>, x: int, y: int)
    requires source.InBounds(x, y)
    ensures (forall i :: 0 <= i < |faces| ==> !InOverlay(faces[i], x, y)) ==>
      DukeFaces(source, faces).pixels[y][x] == source.pixels[y][x]
    ensures DukeFaces(source, faces).pixels[y][x] == source.pixels[y][x]
      || DukeFaces(source, faces).pixels[y][x] in {Black, White, Red}
    decreases |faces|
  {
    if |faces| > 0 {
      var n := |faces| - 1;
      assert faces == faces[..n] + [faces[n]];
      FoldLeftSnoc(Dukify, source, faces[..n], faces[n]);
      DukeFacesFrame(source, faces[..n], x, y);
      DukifyPixel(DukeFaces(source, faces[..n]), faces[n], x, y);
    }
  }

  /** The last detection is drawn last: its disc is red whatever earlier
      detections painted there. */
  lemma LastFaceOnTop(source: Image, faces: seq<Rect>, r: Rect, x: int, y: int)
    requires source.InBounds(x, y) && Covers(CenterDisc(r), x, y)
    ensures DukeFaces(source, faces + [r]).pixels[y][x] == Red
  {
    FoldLeftSnoc(Dukify, source, faces, r);
    DiscIsRed(DukeFaces(source, faces), r, x, y);
  }

  /** Every detection's stamp survives where no later detection's overlay
      reaches: there the pixel has the colour detection `i` painted, red in
      its disc, otherwise white in its lower half, otherwise black. */
  lemma {:induction false} DukeFacesPixel(source: Image, faces: seq<Rect>, i: int, x: int, y: int)
    requires source.InBounds(x, y)
    requires 0 <= i < |faces| && InOverlay(faces[i], x, y)
    requires forall j :: i < j < |faces| ==> !InOverlay(faces[j], x, y)
    ensures DukeFaces(source, faces).pixels[y][x] ==
      if Covers(CenterDisc(faces[i]), x, y) then Red
      else if Covers(LowerBox(faces[i]), x, y) then White
      else Black
    decreases |faces|
  {
    var n := |faces| - 1;
    assert faces == faces[..n] + [faces[n]];
    FoldLeftSnoc(Dukify, source, faces[..n], faces[n]);
    var before := DukeFaces(source, faces[..n]);
    DukifyPixel(before, faces[n], x, y);
    if i < n {
      DukeFacesPixel(source, faces[..n], i, x, y);
    }
  }

  /** `POST /duker`: read the upload, stamp it, answer with an image of the
      same columns and rows. An unreadable upload fails the request. */
  function SyncDuker(env: Collaborators, file: Bytes): (r: Result<Image, Error>)
    ensures r.Success? <==> env.read(file).Some?
    ensures r.Success? ==> SameShape(env.read(file).value, r.value)
    ensures r.Success? && Rectangular(env.read(file).value) ==> Rectangular(r.value)
    ensures r.Success? ==>
      (r.value.Rows() == env.read(file).value.Rows() && r.value.Cols() == env.read(file).value.Cols())
    ensures r.Success? && env.detect(env.read(file).value) == [] ==> r.value == env.read(file).value
    ensures r.Success? ==>
      var source := env.read(file).value;
      r.value == DukeFaces(source, env.detect(source))
  {
    match env.read(file)
    case None => Failure(ImageUnreadable)
    case Some(source) => Success(DukeFaces(source, env.detect(source)))
  }

  /** `POST /queue`: the uploaded bytes go to `processImage` untouched. */
  function Queue(file: Bytes): (r: Reply)
    ensures r.body == Ack
    ensures |r.sent| == 1 && r.sent[0].destination == ProcessImage && r.sent[0].payload == file
  {
    Reply(Ack, [JmsMessage(ProcessImage, file)])
  }

  /** Message `duker`: the Base64 text is decoded (not the image inside)
      and the bytes are queued exactly as `/queue` would queue them. */
  function MessageDuker(base64Image: string): (r: Result<Reply, Error>)
    ensures r.Success? <==> Base64.Decode(base64Image).Some?
    ensures r.Success? ==>
      (&& r.value.body == Ack && |r.value.sent| == 1
       && r.value.sent[0].destination == ProcessImage
       && r.value.sent[0].payload == Base64.Decode(base64Image).value)
  {
    match Base64.Decode(base64Image)
    case None => Failure(MalformedBase64)
    case Some(src) => Success(Queue(src))
  }

  /** Sending the Base64 text of an upload over the message endpoint queues
      the same message as uploading it to `/queue`. */
  lemma MessageMatchesUpload(file: Bytes)
    ensures MessageDuker(Base64.Encode(file)) == Success(Queue(file))
  {
    Base64.RoundTrip(file);
  }

  /** The JMS listener: read, stamp, resize to `resizedWidth`, write PNG and
      broadcast its Base64 text on `/queue/finish`. An unreadable payload or
      a failing resize ends the job with nothing broadcast. */
  function HandleImageMessage(env: Collaborators, resizedWidth: int, message: JmsMessage): (r: Result<StompMessage, Error>)
    ensures r.Success? <==>
      (env.read(message.payload).Some?
       && var source := env.read(message.payload).value;
          env.resize(DukeFaces(source, env.detect(source)), resizedWidth).Some?)
    ensures env.read(message.payload).None? ==> r == Failure(ImageUnreadable)
    ensures r.Success? ==> r.value.destination == FinishDestination
    ensures r.Success? ==> |r.value.payload| % 4 == 0
    ensures r.Success? ==>
      var source := env.read(message.payload).value;
      Base64.Decode(r.value.payload)
        == Some(env.writePng(env.resize(DukeFaces(source, env.detect(source)), resizedWidth).value))
    ensures r.Success? ==>
      var source := env.read(message.payload).value;
      r.value.payload
        == Base64.Encode(env.writePng(env.resize(DukeFaces(source, env.detect(source)), resizedWidth).value))
  {
    match env.read(message.payload)
    case None => Failure(ImageUnreadable)
    case Some(source) =>
      match env.resize(DukeFaces(source, env.detect(source)), resizedWidth)
      case None => Failure(ResizeFailed)
      case Some(resized) =>
        var png := env.writePng(resized);
        Base64.RoundTrip(png);
        Success(StompMessage(FinishDestination, Base64.Encode(png)))
  }

  /** The queued path broadcasts, Base64-encoded, the PNG of the resized
      image the synchronous path would have answered with. It broadcasts
      exactly when the synchronous path answers and that answer can be
      resized; an upload whose resize throws is answered inline but never
      broadcast. */
  lemma QueuedMatchesSync(env: Collaborators, resizedWidth: int, file: Bytes)
    ensures
      var published := HandleImageMessage(env, resizedWidth, Queue(file).sent[0]);
      var inline := SyncDuker(env, file);
      && (published.Success? <==> inline.Success? && env.resize(inline.value, resizedWidth).Some?)
      && (published.Success? ==>
            Base64.Decode(published.value.payload)
              == Some(env.writePng(env.resize(inline.value, resizedWidth).value)))
  {
  }
}

=== FILE: base64.dfy ===
/** The Base64 codec of section 4 of RFC 4648 as `java.util.Base64` provides
    it: `getEncoder()` always pads the final quantum with `=`, and
    `getDecoder()` accepts the final unit with or without its padding, but
    rejects padding that does not complete the unit, a final unit of a
    single character, and any character outside the alphabet. */
module Base64 {
  import opened Results

  /** An octet; Java's signed `byte` is modelled by its unsigned value. */
  type byte = b: int | 0 <= b < 256

  /** A 6-bit group, the index of one alphabet character. */
  type Sextet = i: int | 0 <= i < 64

  const Pad: char := '='

  /** The 64 characters of the alphabet in Table 1 of RFC 4648. */
  predicate IsAlphabetChar(c: char)
  {
    ('A' <= c <= 'Z') || ('a' <= c <= 'z') || ('0' <= c <= '9') || c == '+' || c == '/'
  }

  predicate IsAlphabetString(s: string)
  {
    forall i :: 0 <= i < |s| ==> IsAlphabetChar(s[i])
  }

  /** The value of an alphabet character. */
  function IndexOf(c: char): Sextet
    requires IsAlphabetChar(c)
  {
    if 'A' <= c <= 'Z' then (c as int) - ('A' as int)
    else if 'a' <= c <= 'z' then (c as int) - ('a' as int) + 26
    else if '0' <= c <= '9' then (c as int) - ('0' as int) + 52
    else if c == '+' then 62
    else 63
  }

  /** The character encoding a 6-bit value; `IndexOf` inverts it. */
  function CharOf(i: Sextet): (c: char)
    ensures IsAlphabetChar(c)
    ensures IndexOf(c) == i
  {
    if i < 26 then ((('A' as int) + i) as char)
    else if i < 52 then ((('a' as int) + i - 26) as char)
    else if i < 62 then ((('0' as int) + i - 52) as char)
    else if i == 62 then '+'
    else '/'
  }

  /** Splitting three octets into four sextets and joining them again
      gives back the octets (section 4 of RFC 4648, 24-bit groups). */
  lemma GroupRoundTrip(b0: byte, b1: byte, b2: byte)
    ensures (b0 / 4) * 4 + ((b0 % 4) * 16 + b1 / 16) / 16 == b0
    ensures (((b0 % 4) * 16 + b1 / 16) % 16) * 16 + ((b1 % 16) * 4 + b2 / 64) / 4 == b1
    ensures (((b1 % 16) * 4 + b2 / 64) % 4) * 64 + b2 % 64 == b2
  {
  }

  /** The alphabet characters for `b`, without the trailing padding. */
  function EncodeUnpadded(b: seq<byte>): (s: string)
    ensures IsAlphabetString(s)
    ensures |s| % 4 == (if |b| % 3 == 0 then 0 else |b| % 3 + 1)
    decreases |b|
  {
    if |b| == 0 then ""
    else if |b| == 1 then
      [CharOf(b[0] / 4), CharOf((b[0] % 4) * 16)]
    else if |b| == 2 then
      [CharOf(b[0] / 4), CharOf((b[0] % 4) * 16 + b[1] / 16), CharOf((b[1] % 16) * 4)]
    else
      EncodeQuantum(b[0], b[1], b[2]) + EncodeUnpadded(b[3..])
  }

  /** One full 24-bit group: three octets as four characters. */
  function EncodeQuantum(b0: byte, b1: byte, b2: byte): (s: string)
    ensures |s| == 4 && IsAlphabetString(s)
  {
    [CharOf(b0 / 4), CharOf((b0 % 4) * 16 + b1 / 16), CharOf((b1 % 16) * 4 + b2 / 64), CharOf(b2 % 64)]
  }

  /** Four characters as the three octets of their 24-bit group. */
  function DecodeQuantum(c0: char, c1: char, c2: char, c3: char): (b: seq<byte>)
    requires IsAlphabetChar(c0) && IsAlphabetChar(c1) && IsAlphabetChar(c2) && IsAlphabetChar(c3)
    ensures |b| == 3
  {
    [IndexOf(c0) * 4 + IndexOf(c1) / 16, (IndexOf(c1) % 16) * 16 + IndexOf(c2) / 4, (IndexOf(c2) % 4) * 64 + IndexOf(c3)]
  }

  /** Decoding a full group inverts encoding it. */
  lemma QuantumRoundTrip(b0: byte, b1: byte, b2: byte)
    ensures var s := EncodeQuantum(b0, b1, b2); DecodeQuantum(s[0], s[1], s[2], s[3]) == [b0, b1, b2]
  {
    GroupRoundTrip(b0, b1, b2);
  }

  /** The `=` characters that complete the final quantum of `n` octets. */
  function Padding(n: nat): string
  {
    if n % 3 == 1 then "==" else if n % 3 == 2 then "=" else ""
  }

  /** `Base64.getEncoder().encodeToString(b)`. */
  function Encode(b: seq<byte>): (s: string)
    ensures |s| % 4 == 0
    ensures forall i :: 0 <= i < |s| ==> IsAlphabetChar(s[i]) || s[i] == Pad
  {
    var body := EncodeUnpadded(b);
    var pad := Padding(|b|);
    assert forall i :: 0 <= i < |pad| ==> pad[i] == Pad;
    assert |body + pad| == |body| + |pad|;
    body + pad
  }

  /** Every three octets become four characters, and a final one or two
      octets become a full padded quantum. */
  lemma {:induction false} EncodedLength(b: seq<byte>)
    ensures |Encode(b)| == 4 * ((|b| + 2) / 3)
    decreases |b|
  {
    var n := |b|;
    if n >= 3 {
      EncodedLength(b[3..]);
      assert |EncodeUnpadded(b)| == 4 + |EncodeUnpadded(b[3..])|;
      assert Padding(n) == Padding(n - 3);
      assert (n + 2) / 3 == (n - 3 + 2) / 3 + 1;
    } else {
      assert (n + 2) / 3 == (if n == 0 then 0 else 1);
    }
  }

  /** The octets of a final-unit-complete run of alphabet characters. */
  function DecodeUnpadded(s: string): (b: seq<byte>)
    requires IsAlphabetString(s)
    requires |s| % 4 != 1
    ensures |b| == (3 * |s|) / 4
    decreases |s|
  {
    if |s| == 0 then []
    else if |s| == 2 then DecodeFinalUnit(s[0], s[1], None)
    else if |s| == 3 then DecodeFinalUnit(s[0], s[1], Some(s[2]))
    else
      assert IsAlphabetString(s[4..]);
      assert (3 * |s|) / 4 == 3 + (3 * (|s| - 4)) / 4;
      DecodeQuantum(s[0], s[1], s[2], s[3]) + DecodeUnpadded(s[4..])
  }

  /** A final unit of two characters (one octet) or three (two octets). */
  function DecodeFinalUnit(c0: char, c1: char, c2: Option<char>): (b: seq<byte>)
    requires IsAlphabetChar(c0) && IsAlphabetChar(c1)
    requires c2.Some? ==> IsAlphabetChar(c2.value)
    ensures |b| == if c2.Some? then 2 else 1
  {
    match c2
    case None => [IndexOf(c0) * 4 + IndexOf(c1) / 16]
    case Some(c) => [IndexOf(c0) * 4 + IndexOf(c1) / 16, (IndexOf(c1) % 16) * 16 + IndexOf(c) / 4]
  }

  /** Decodes the characters before the padding, which must leave a final
      unit of exactly `unit` characters. */
  function DecodePadded(body: string, unit: nat): Option<seq<byte>>
  {
    if |body| % 4 == unit && unit != 1 && IsAlphabetString(body) then Some(DecodeUnpadded(body)) else None
  }

  /** `Base64.getDecoder().decode(s)`, `None` where Java throws
      `IllegalArgumentException`. */
  function Decode(s: string): (r: Option<seq<byte>>)
    ensures (exists i :: 0 <= i < |s| && !IsAlphabetChar(s[i]) && s[i] != Pad) ==> r.None?
    ensures |s| % 4 == 1 ==> r.None?
    ensures 1 <= |s| && s[|s| - 1] == Pad && |s| % 4 != 0 ==> r.None?
    ensures r.Some? ==> forall i :: 0 <= i < |s| && s[i] == Pad ==> i >= |s| - 2 && s[|s| - 1] == Pad
  {
    if 2 <= |s| && s[|s| - 1] == Pad && s[|s| - 2] == Pad then DecodePadded(s[..|s| - 2], 2)
    else if 1 <= |s| && s[|s| - 1] == Pad then DecodePadded(s[..|s| - 1], 3)
    else DecodePadded(s, |s| % 4)
  }

  /** A final unit of one octet decodes back to that octet. */
  lemma OneOctetRoundTrip(b: seq<byte>)
    requires |b| == 1
    ensures DecodeUnpadded(EncodeUnpadded(b)) == b
  {
    var b0 := b[0];
    var s := EncodeUnpadded(b);
    assert s == [CharOf(b0 / 4), CharOf((b0 % 4) * 16)];
    assert IndexOf(s[0]) == b0 / 4 && IndexOf(s[1]) == (b0 % 4) * 16;
    assert DecodeUnpadded(s) == DecodeFinalUnit(s[0], s[1], None) == [IndexOf(s[0]) * 4 + IndexOf(s[1]) / 16];
  }

  /** A final unit of two octets decodes back to those octets. */
  lemma TwoOctetsRoundTrip(b: seq<byte>)
    requires |b| == 2
    ensures DecodeUnpadded(EncodeUnpadded(b)) == b
  {
    assert b == [b[0], b[1]];
    TwoOctetsValues(b[0], b[1]);
  }

  /** The two octets of a three-character final unit, given by value,
      decode back from their encoding. */
  lemma TwoOctetsValues(b0: byte, b1: byte)
    ensures DecodeUnpadded(EncodeUnpadded([b0, b1])) == [b0, b1]
  {
    var s := EncodeUnpadded([b0, b1]);
    assert s == [CharOf(b0 / 4), CharOf((b0 % 4) * 16 + b1 / 16), CharOf((b1 % 16) * 4)];
    assert IndexOf(s[0]) == b0 / 4 && IndexOf(s[1]) == (b0 % 4) * 16 + b1 / 16 && IndexOf(s[2]) == (b1 % 16) * 4;
    GroupRoundTrip(b0, b1, 0);
    assert DecodeUnpadded(s) == DecodeFinalUnit(s[0], s[1], Some(s[2]))
      == [IndexOf(s[0]) * 4 + IndexOf(s[1]) / 16, (IndexOf(s[1]) % 16) * 16 + IndexOf(s[2]) / 4];
  }

  /** Decoding the encoding of three or more octets yields the first three
      octets, then the decoding of the rest's encoding. */
  lemma LeadingQuantum(b: seq<byte>)
    requires |b| >= 3
    ensures DecodeUnpadded(EncodeUnpadded(b)) == [b[0], b[1], b[2]] + DecodeUnpadded(EncodeUnpadded(b[3..]))
  {
    var s := EncodeUnpadded(b);
    var q := EncodeQuantum(b[0], b[1], b[2]);
    var rest := EncodeUnpadded(b[3..]);
    assert s == q + rest;
    assert s[0] == q[0] && s[1] == q[1] && s[2] == q[2] && s[3] == q[3];
    assert s[4..] == rest;
    QuantumRoundTrip(b[0], b[1], b[2]);
  }

  /** Decoding the unpadded encoding of any octets gives them back, one
      leading group of three at a time. */
  lemma {:induction false} UnpaddedRoundTrip(b: seq<byte>)
    ensures DecodeUnpadded(EncodeUnpadded(b)) == b
    decreases |b|
  {
    if |b| == 0 {
    } else if |b| == 1 {
      OneOctetRoundTrip(b);
    } else if |b| == 2 {
      TwoOctetsRoundTrip(b);
    } else {
      LeadingQuantum(b);
      UnpaddedRoundTrip(b[3..]);
      assert b == [b[0], b[1], b[2]] + b[3..];
    }
  }

  /** Unpadded alphabet text with a complete final unit is decoded as it stands. */
  lemma DecodeNoPadding(body: string)
    requires IsAlphabetString(body) && |body| % 4 != 1
    ensures Decode(body) == Some(DecodeUnpadded(body))
  {
    if |body| > 0 {
      assert IsAlphabetChar(body[|body| - 1]);
    }
  }

  /** One `=` completes a final unit of three characters. */
  lemma DecodeOnePad(body: string)
    requires IsAlphabetString(body) && |body| % 4 == 3
    ensures Decode(body + "=") == Some(DecodeUnpadded(body))
  {
    var s := body + "=";
    assert s[..|s| - 1] == body;
    assert s[|s| - 2] == body[|body| - 1];
    assert IsAlphabetChar(body[|body| - 1]);
  }

  /** Two `=` complete a final unit of two characters. */
  lemma DecodeTwoPads(body: string)
    requires IsAlphabetString(body) && |body| % 4 == 2
    ensures Decode(body + "==") == Some(DecodeUnpadded(body))
  {
    var s := body + "==";
    assert s[..|s| - 2] == body;
  }

  /** Decoding what the encoder produced gives back the original octets. */
  lemma RoundTrip(b: seq<byte>)
    ensures Decode(Encode(b)) == Some(b)
  {
    var body := EncodeUnpadded(b);
    UnpaddedRoundTrip(b);
    if |b| % 3 == 0 {
      assert Encode(b) == body;
      DecodeNoPadding(body);
    } else if |b| % 3 == 1 {
      assert Encode(b) == body + "==";
      DecodeTwoPads(body);
    } else {
      assert Encode(b) == body + "=";
      DecodeOnePad(body);
    }
  }

  /** The decoder also accepts the encoding with its padding left off. */
  lemma UnpaddedAccepted(b: seq<byte>)
    ensures Decode(EncodeUnpadded(b)) == Some(b)
  {
    UnpaddedRoundTrip(b);
    DecodeNoPadding(EncodeUnpadded(b));
  }
}

=== FILE: canvas.dfy ===
/** An abstract `Mat`: a grid of pixel values that OpenCV's fill calls
    overwrite in place. A drawing call repaints the pixels its shape covers
    and leaves every other pixel alone; pixels outside the grid are never
    written, so a shape that sticks out of the image is clipped. */
module Canvas {
  import opened Results
  import opened Geometry
  import opened Folds

  /** Row-major pixels: `pixels[y][x]` is column `x` of row `y`. The type
      allows rows of different lengths; a decoded `Mat` is `Rectangular`,
      and every operation here keeps the length of each row. */
  datatype Image = Image(pixels: seq<seq<Scalar>>) {

    /** `Mat.rows()`. */
    function Rows(): nat { |pixels| }

    /** `Mat.cols()`. */
    function Cols(): nat { if |pixels| == 0 then 0 else |pixels[0]| }

    predicate InBounds(x: int, y: int)
    {
      0 <= y < |pixels| && 0 <= x < |pixels[y]|
    }
  }

  /** Every row has `Cols()` pixels, as in a `Mat`. */
  predicate Rectangular(img: Image)
  {
    forall y :: 0 <= y < |img.pixels| ==> |img.pixels[y]| == img.Cols()
  }

  /** Two images have the same number of rows and each row the same length. */
  predicate SameShape(a: Image, b: Image)
  {
    |a.pixels| == |b.pixels| && forall y :: 0 <= y < |a.pixels| ==> |a.pixels[y]| == |b.pixels[y]|
  }

  /** One fill call (`rectangle` or `circle` with thickness -1). */
  datatype DrawCmd = Fill(shape: Shape, color: Scalar)

  /** Executes one fill call on the image. */
  function Paint(img: Image, cmd: DrawCmd): (r: Image)
    ensures SameShape(img, r)
    ensures Rectangular(img) ==> Rectangular(r)
    ensures forall y, x | img.InBounds(x, y) ::
      r.pixels[y][x] == (if Covers(cmd.shape, x, y) then cmd.color else img.pixels[y][x])
  {
    Image(seq(|img.pixels|, y requires 0 <= y < |img.pixels| =>
      seq(|img.pixels[y]|, x requires 0 <= x < |img.pixels[y]| =>
        if Covers(cmd.shape, x, y) then cmd.color else img.pixels[y][x])))
  }

  /** Executes the fill calls one after another on the same image. */
  function PaintAll(img: Image, cmds: seq<DrawCmd>): (r: Image)
    ensures SameShape(img, r)
    ensures Rectangular(img) ==> Rectangular(r) && r.Rows() == img.Rows() && r.Cols() == img.Cols()
  {
    PaintAllShape(img, cmds);
    FoldLeft(Paint, img, cmds)
  }

  /** The colour of the last command covering (x, y), if any: the reference
      for what a sequence of fills leaves at that pixel. */
  function LastCover(cmds: seq<DrawCmd>, x: int, y: int): (c: Option<Scalar>)
    ensures c.None? <==> forall i :: 0 <= i < |cmds| ==> !Covers(cmds[i].shape, x, y)
    ensures c.Some? ==>
      exists i :: 0 <= i < |cmds| && Covers(cmds[i].shape, x, y) && cmds[i].color == c.value
        && forall j :: i < j < |cmds| ==> !Covers(cmds[j].shape, x, y)
    decreases |cmds|
  {
    if |cmds| == 0 then None
    else if Covers(cmds[|cmds| - 1].shape, x, y) then Some(cmds[|cmds| - 1].color)
    else LastCover(cmds[..|cmds| - 1], x, y)
  }

  /** Fills never change the shape of the image. */
  lemma {:induction false} PaintAllShape(img: Image, cmds: seq<DrawCmd>)
    ensures SameShape(img, FoldLeft(Paint, img, cmds))
    decreases |cmds|
  {
    if |cmds| > 0 {
      PaintAllShape(Paint(img, cmds[0]), cmds[1..]);
    }
  }

  /** Later fills overwrite earlier ones: after a sequence of fills, a pixel
      holds the colour of the last fill covering it, and keeps its old value
      when no fill covers it. */
  lemma {:induction false} PaintAllPixel(img: Image, cmds: seq<DrawCmd>, x: int, y: int)
    requires img.InBounds(x, y)
    ensures SameShape(img, PaintAll(img, cmds))
    ensures PaintAll(img, cmds).pixels[y][x] == LastCover(cmds, x, y).GetOr(img.pixels[y][x])
    decreases |cmds|
  {
    if |cmds| > 0 {
      var n := |cmds| - 1;
      assert cmds == cmds[..n] + [cmds[n]];
      FoldLeftSnoc(Paint, img, cmds[..n], cmds[n]);
      PaintAllPixel(img, cmds[..n], x, y);
    }
  }

  /** Two images of the same shape that agree on every pixel are equal. */
  lemma ImageExt(a: Image, b: Image)
    requires SameShape(a, b)
    requires forall y, x | a.InBounds(x, y) :: a.pixels[y][x] == b.pixels[y][x]
    ensures a == b
  {
    forall y | 0 <= y < |a.pixels|
      ensures a.pixels[y] == b.pixels[y]
    {
      assert forall x | 0 <= x < |a.pixels[y]| :: a.InBounds(x, y);
    }
    assert a.pixels == b.pixels;
  }
}

=== FILE: face_detector.dfy ===
/** `FaceDetector.detectFaces`: runs the classifier once, then hands every
    detected rectangle, in the order the classifier returned them, to the
    detection action, which draws on the one shared image. The classifier
    itself is not modelled: its output is the sequence `faces`. */
module FaceDetector {
  import opened Geometry
  import opened Canvas
  import opened Folds

  /** The image after the action has been applied to each detection in
      index order: the reference the loop is proved equal to. */
  function ApplyAll(source: Image, faces: seq<Rect>, action: (Image, Rect) -> Image): Image
  {
    FoldLeft(action, source, faces)
  }

  /** The loop of `detectFaces`. `visited` records the rectangle passed to
      each call of the action, one entry per call. */
  method DetectFaces(source: Image, faces: seq<Rect>, action: (Image, Rect) -> Image)
    returns (result: Image, visited: seq<Rect>)
    ensures visited == faces
    ensures result == ApplyAll(source, faces, action)
    ensures |faces| == 0 ==> result == source
  {
    result := source;
    visited := [];
    var i := 0;
    while i < |faces|
      invariant 0 <= i <= |faces|
      invariant visited == faces[..i]
      invariant result == ApplyAll(source, faces[..i], action)
    {
      var r := faces[i];
      FoldLeftSnoc(action, source, faces[..i], r);
      assert faces[..i + 1] == faces[..i] + [r];
      result := action(result, r);
      visited := visited + [r];
      i := i + 1;
    }
    assert faces[..i] == faces;
  }

  /** Detection `i` is acted on after detections `0..i-1` and before the rest. */
  lemma ApplyAllStep(source: Image, faces: seq<Rect>, action: (Image, Rect) -> Image, i: int)
    requires 0 <= i < |faces|
    ensures ApplyAll(source, faces[..i + 1], action) == action(ApplyAll(source, faces[..i], action), faces[i])
  {
    assert faces[..i + 1] == faces[..i] + [faces[i]];
    FoldLeftSnoc(action, source, faces[..i], faces[i]);
  }

  /** An action that keeps the image's shape keeps it over any number of detections. */
  lemma {:induction false} ApplyAllKeepsShape(source: Image, faces: seq<Rect>, action: (Image, Rect) -> Image)
    requires forall img: Image, r: Rect :: SameShape(img, action(img, r))
    ensures SameShape(source, ApplyAll(source, faces, action))
    decreases |faces|
  {
    if |faces| > 0 {
      ApplyAllKeepsShape(action(source, faces[0]), faces[1..], action);
    }
  }
}

=== FILE: face_translator.dfy ===
/** `FaceTranslator.duker`: the "Duke" stamp drawn over one detected region,
    a black upper half, a white lower half and a red disc on the split row. */
module FaceTranslator {
  import opened Geometry
  import opened Canvas

  /** The three fill colours, as OpenCV blue-green-red-alpha scalars. */
  const Black: Scalar := Scalar(0, 0, 0, 0)
  const White: Scalar := Scalar(255, 255, 255, 0)
  /** Blue 0, green 0, red 255: red in OpenCV's channel order. */
  const Red: Scalar := Scalar(0, 0, 255, 0)

  /** `h / 2` in Java: the offset of the row where the region is split. */
  function Half(r: Rect): int
  {
    JavaDiv(r.height, 2)
  }

  function UpperBox(r: Rect): Shape
  {
    Box(Point(r.x, r.y), Point(r.x + r.width, r.y + Half(r)))
  }

  function LowerBox(r: Rect): Shape
  {
    Box(Point(r.x, r.y + Half(r)), Point(r.x + r.width, r.y + r.height))
  }

  function CenterDisc(r: Rect): Shape
  {
    Disc(Point(r.x + Half(r), r.y + Half(r)), JavaDiv(r.width + r.height, 12))
  }

  /** The fill calls `duker` makes for region `r`, in the order it makes them. */
  function Duker(r: Rect): (cmds: seq<DrawCmd>)
    ensures |cmds| == 3
    ensures cmds[0].color == Black && cmds[1].color == White && cmds[2].color == Red
    ensures cmds[0].shape.Box? && cmds[1].shape.Box? && cmds[2].shape.Disc?
    // the upper fill starts at the region's corner, the lower one ends at the opposite corner
    ensures cmds[0].shape.p1 == Point(r.x, r.y)
    ensures cmds[1].shape.p2 == Point(r.x + r.width, r.y + r.height)
    // both fills span the region's columns and meet on one shared split row
    ensures cmds[0].shape.p2.x == cmds[1].shape.p2.x == r.x + r.width
    ensures cmds[1].shape.p1.x == r.x
    ensures cmds[0].shape.p2.y == cmds[1].shape.p1.y
    // the disc is centred on the split row, at the same offset from the left edge
    ensures cmds[2].shape.center.y == cmds[0].shape.p2.y
    ensures cmds[2].shape.center.x - r.x == cmds[2].shape.center.y - r.y
    ensures r.width >= 0 && r.height >= 0 ==>
      0 <= cmds[2].shape.radius && 12 * cmds[2].shape.radius <= r.width + r.height < 12 * cmds[2].shape.radius + 12
    ensures r.height >= 0 ==> r.y <= cmds[0].shape.p2.y <= r.y + r.height
    // for a non-negative height, the split row is y + h/2 and the disc centre is (x + h/2, y + h/2)
    ensures r.height >= 0 ==> cmds[0].shape.p2.y == r.y + r.height / 2
    ensures r.height >= 0 ==> cmds[2].shape.center == Point(r.x + r.height / 2, r.y + r.height / 2)
  {
    [Fill(UpperBox(r), Black), Fill(LowerBox(r), White), Fill(CenterDisc(r), Red)]
  }

  /** The detection action handed to `detectFaces`: stamp one region. */
  function Dukify(img: Image, r: Rect): (out: Image)
    ensures SameShape(img, out)
  {
    PaintAll(img, Duker(r))
  }

  /** Whether (x, y) lies under any of the three shapes. */
  predicate InOverlay(r: Rect, x: int, y: int)
  {
    Covers(UpperBox(r), x, y) || Covers(LowerBox(r), x, y) || Covers(CenterDisc(r), x, y)
  }

  /** The scenario region {100, 80, 60, 60}: black over rows 80..110 and
      white over rows 110..140, both over columns 100..160, and a red disc
      of radius 10 centred at (130, 110). */
  lemma DukerExample()
    ensures Duker(Rect(100, 80, 60, 60)) ==
      [Fill(Box(Point(100, 80), Point(160, 110)), Black),
       Fill(Box(Point(100, 110), Point(160, 140)), White),
       Fill(Disc(Point(130, 110), 10), Red)]
  {
  }

  /** For a region of non-negative size, the two halves together cover
      exactly the closed region, and they overlap only on the split row. */
  lemma HalvesTileRegion(r: Rect, x: int, y: int)
    requires r.width >= 0 && r.height >= 0
    ensures Covers(UpperBox(r), x, y) || Covers(LowerBox(r), x, y) <==>
      r.x <= x <= r.x + r.width && r.y <= y <= r.y + r.height
    ensures Covers(UpperBox(r), x, y) && Covers(LowerBox(r), x, y) <==>
      r.x <= x <= r.x + r.width && y == r.y + r.height / 2
  {
  }

  /** What one stamp leaves at a pixel: red inside the disc, otherwise white
      in the lower half (the shared split row included), otherwise black in
      the upper half, otherwise the old value. */
  lemma DukifyPixel(img: Image, r: Rect, x: int, y: int)
    requires img.InBounds(x, y)
    ensures SameShape(img, Dukify(img, r))
    ensures Dukify(img, r).pixels[y][x] ==
      if Covers(CenterDisc(r), x, y) then Red
      else if Covers(LowerBox(r), x, y) then White
      else if Covers(UpperBox(r), x, y) then Black
      else img.pixels[y][x]
  {
    var cmds := Duker(r);
    PaintAllPixel(img, cmds, x, y);
    assert cmds[..2] == [cmds[0], cmds[1]];
    assert cmds[..2][..1] == [cmds[0]];
    assert cmds[..2][..1][..0] == [];
  }

  /** Every pixel the disc covers ends up red, whichever half it lies in. */
  lemma DiscIsRed(img: Image, r: Rect, x: int, y: int)
    requires img.InBounds(x, y) && Covers(CenterDisc(r), x, y)
    ensures Dukify(img, r).pixels[y][x] == Red
  {
    DukifyPixel(img, r, x, y);
  }

  /** A stamp changes no pixel outside its three shapes, writes no colour
      but the three overlay colours, and keeps the image's shape. */
  lemma DukifyFrame(img: Image, r: Rect)
    ensures SameShape(img, Dukify(img, r))
    ensures forall y, x | img.InBounds(x, y) && !InOverlay(r, x, y) ::
      Dukify(img, r).pixels[y][x] == img.pixels[y][x]
    ensures forall y, x | img.InBounds(x, y) && InOverlay(r, x, y) ::
      Dukify(img, r).pixels[y][x] in {Black, White, Red}
  {
    forall y, x | img.InBounds(x, y)
      ensures !InOverlay(r, x, y) ==> Dukify(img, r).pixels[y][x] == img.pixels[y][x]
      ensures InOverlay(r, x, y) ==> Dukify(img, r).pixels[y][x] in {Black, White, Red}
    {
      DukifyPixel(img, r, x, y);
    }
  }

  /** Stamping the same region twice looks like stamping it once:
      under the closed-shape abstraction, re-stamping a stamped region
      changes nothing (anti-aliased edges, which blend with the old pixels,
      are not modelled). */
  lemma DukifyIdempotent(img: Image, r: Rect)
    ensures Dukify(Dukify(img, r), r) == Dukify(img, r)
  {
    var once := Dukify(img, r);
    var twice := Dukify(once, r);
    forall y, x | once.InBounds(x, y)
      ensures once.pixels[y][x] == twice.pixels[y][x]
    {
      DukifyPixel(img, r, x, y);
      DukifyPixel(once, r, x, y);
    }
    ImageExt(once, twice);
  }
}

=== FILE: folds.dfy ===
/** Applying a step to an accumulator once per element, front to back:
    the shape of both the classifier loop in `detectFaces` and of a sequence
    of drawing calls on one `Mat`. */
module Folds {

  function FoldLeft<A, B>(f: (A, B) -> A, init: A, s: seq<B>): A
    decreases |s|
  {
    if |s| == 0 then init else FoldLeft(f, f(init, s[0]), s[1..])
  }

  /** Folding over a concatenation is folding the second part from where
      the first part left off. */
  lemma {:induction false} FoldLeftAppend<A, B>(f: (A, B) -> A, init: A, s: seq<B>, t: seq<B>)
    ensures FoldLeft(f, init, s + t) == FoldLeft(f, FoldLeft(f, init, s), t)
    decreases |s|
  {
    if |s| == 0 {
      assert s + t == t;
    } else {
      assert (s + t)[0] == s[0];
      assert (s + t)[1..] == s[1..] + t;
      FoldLeftAppend(f, f(init, s[0]), s[1..], t);
    }
  }

  /** The last element is applied last, to the result of all the others. */
  lemma FoldLeftSnoc<A, B>(f: (A, B) -> A, init: A, s: seq<B>, b: B)
    ensures FoldLeft(f, init, s + [b]) == f(FoldLeft(f, init, s), b)
  {
    FoldLeftAppend(f, init, s, [b]);
    assert [b][1..] == [];
  }
}

=== FILE: geometry.dfy ===
/** The plain values OpenCV's drawing calls take (`Point`, `Rect`, `Scalar`)
    and the membership test used for the two shapes `duker` draws. */
module Geometry {

  /** `opencv_core.Point`: a pixel position, `x` the column and `y` the row. */
  datatype Point = Point(x: int, y: int)

  /** `opencv_core.Rect` as returned by the classifier: top-left corner and size. */
  datatype Rect = Rect(x: int, y: int, width: int, height: int)

  /** `opencv_core.Scalar`: four channel values, in OpenCV's blue-green-red(-alpha) order. */
  datatype Scalar = Scalar(v0: int, v1: int, v2: int, v3: int)

  /** A filled shape: the rectangle spanned by two opposite corners,
      or the disc around a centre. */
  datatype Shape =
    | Box(p1: Point, p2: Point)
    | Disc(center: Point, radius: int)

  function Min(a: int, b: int): int { if a <= b then a else b }
  function Max(a: int, b: int): int { if a <= b then b else a }

  /** Java's `/` on `int`: the quotient is truncated toward zero, unlike
      Dafny's Euclidean `/`. The model only divides by positive constants. */
  function JavaDiv(a: int, d: int): (q: int)
    requires d > 0
    ensures a >= 0 ==> q == a / d
    ensures a < 0 ==> q == -((-a) / d)
  {
    if a >= 0 then a / d else -((-a) / d)
  }

  /** Whether pixel (x, y) is painted by a filled shape. This is an
      ABSTRACTION of OpenCV's rasteriser: a box is the closed range between
      its corners (in either order) on both axes, and a disc is the closed
      Euclidean disc; anti-aliasing and pixelisation are not modelled. */
  predicate Covers(s: Shape, x: int, y: int)
  {
    match s
    case Box(p1, p2) =>
      Min(p1.x, p2.x) <= x <= Max(p1.x, p2.x) && Min(p1.y, p2.y) <= y <= Max(p1.y, p2.y)
    case Disc(c, r) =>
      0 <= r && (x - c.x) * (x - c.x) + (y - c.y) * (y - c.y) <= r * r
  }
}

=== FILE: results.dfy ===
/** Failure-carrying wrappers shared by the model: the Java code signals a
    missing value with `null` and a failure with an exception; the model
    returns one of these instead. */
module Results {

  /** A value that may be absent (`ImageIO.read` returning `null`,
      a Base64 decoder rejecting its input). */
  datatype Option<+T> = None | Some(value: T) {

    /** The carried value, or `default` when there is none. */
    function GetOr(default: T): (r: T)
      ensures Some? ==> r == value
      ensures None? ==> r == default
    {
      match this
      case Some(v) => v
      case None => default
    }
  }

  /** The outcome of an entry point: its normal result, or the error
      that the Java code would have thrown. */
  datatype Result<+T, +E> = Success(value: T) | Failure(error: E)
}
